=== FILE: README.md ===
# Caregiver stress calculator: the scoring rules, in Dafny

This project models the pure rules inside `app.py`, the Streamlit app that scores a
caregiver's risk of stress from ten inputs and explains the score with a SHAP
waterfall. The rules are:

- **the feature schema.** This is the `feature_ranges` table and the order the
  preprocessor was fitted on (`FINAL_FEATURES`). It also covers the numerical and
  categorical column lists (`NUM_COLS`, `CAT_COLS`), the label, value-mapping and
  unit tables, and how a categorical field's `options` become the values it offers.
- **the record builder** (`ensure_feature_dataframe`). It turns a mapping from feature
  to value into a one-row table in a required column order. If any required feature
  is absent, it fails and names every absent one.
- **the risk rule** (`risk_narrative` and `pred = int(prob >= thr)`). The label is
  high risk exactly when the probability reaches the threshold.
- **the probability dispatch** (`predict_proba`). A probability output is preferred
  to a margin, and a model with neither is rejected.
- **the threshold fallback** (`load_threshold`). The threshold map's value for the key
  is used when there is one. Otherwise the default 0.5 is used.
- **the display rules.** In the input summary and under the waterfall, a value is
  shown as `"v - label"`, as `"v unit"` or raw. A select-box option is captioned
  `"v - label"`, `"v - v"` (a mapped feature's value the mapping lacks) or `"v"`
  (a feature without a mapping).
- **the attribution-shape normalisation.** The explainer may return a per-class list,
  a structured object or a bare array. Each shape is reduced to one contribution
  vector and one baseline.

Modules follow these concerns:

- `Frames`: the builder.
- `Risk`: label, narrative and dispatch.
- `Threshold`: the threshold fallback.
- `Schema`: the constants, option expansion, column lists and what the form can submit.
- `Display`: the display rules.
- `Attribution`: the shape normalisation.
- `Consistency`: facts about the concrete constants.
- `Scoring`: one submission, end to end.
- `Results` and `Sequences`: generic helpers.

The features are an enumeration (`Schema.Feature`), and `Feature.Name` gives the
column name the app uses for each. `Consistency.NameInjective`, `SchemaKeysNamed`,
`FinalFeaturesNamed`, `MappingKeysNamed` and `UnitKeysNamed` tie the enumeration to
app.py's string keys. So the schema facts proved over the enumeration hold of the
names as app.py spells them. The record builder is generic in its key type, so
its properties hold for any keys, including names that are not features.

Each value is a cell of a one-row pandas frame. The frame mixes float and int columns,
so `iloc[0]` upcasts the row to float64. Values are therefore modelled as reals. This
has a visible effect:

- the input summary prints a categorical code as a float (`5.0 - Excellent`);
- the waterfall first converts an integral value to an int (`5 - Excellent`).

`Display.EchoAndAttributionAgree` proves that the two paths differ in nothing else.

Python floats are modelled as exact reals, and the comparison `prob >= thr` as real
comparison. Python's `int()` of a float truncates toward zero, and this is written
out in `Schema.Truncate`.

Three behaviours of the code are worth stating plainly:

- `load_threshold` does not range-check the value it reads. The value becomes the
  starting position of the threshold slider (app.py:155), which is bounded by 0.0
  and 1.0. Scoring compares against the slider's value, which is the `thr` passed to
  `Scoring.Submit`. Streamlit refuses a starting value outside the slider's bounds,
  so a file value outside 0..1 stops the page at start-up. That library behaviour
  is not modelled.
- The contribution vector's length is never checked against the feature count.
  `Attribution.NormalizedWidth` therefore needs the explainer's arrays to have that
  width.
- A per-class list with a single entry still takes `expected_value[1]` as its
  baseline when `expected_value` has more than one entry.

## Model

| member | source | states |
|---|---|---|
| Frames.Absent | app.py:119 | the missing list holds a name exactly when the required order has it and the input lacks it |
| Frames.AbsentIsSubsequence | app.py:119 | the missing list keeps the order of the required feature order |
| Frames.AbsentCounts | app.py:119 | each absent name is listed as many times as the order requires it, and no present name is listed |
| Frames.AbsentReadsOnlyOrder | app.py:118-119 | which names are missing depends only on which required names the input has |
| Frames.EnsureFeatureFrame | app.py:117-122 | fails iff some required feature is absent, naming exactly the absent ones in order; on success the columns are the required order and each cell holds the input's value for its column, with nothing defaulted |
| Frames.BuildIgnoresOtherKeys | app.py:118-122 | extra input keys are dropped and the input's key order plays no part: inputs agreeing on the required names build the same table or error |
| Risk.RiskNarrative | app.py:134-151 | "High stress risk" iff prob >= thr and "Low stress risk" iff prob < thr; the paragraph says ≥ exactly for high risk, restates the probability and threshold, and closes with the matching advice |
| Risk.PredictedLabel | app.py:211 | the numeric label is 0 or 1, and it is 1 exactly when the probability reaches the threshold |
| Risk.PredictionMatchesNarrative | app.py:211-223 | the numeric label is 1 exactly when the text label is the high-risk one and 0 exactly when it is the low-risk one |
| Risk.LabelMonotone | app.py:139 | a higher probability or a lower threshold never lowers the label |
| Risk.ProbabilitySourceOf | app.py:125-131 | `predict_proba` wins whenever present; the margin is used only without it; a model with neither is rejected |
| Risk.DispatchSucceedsIffSomeOutput | app.py:125-131 | a probability is obtained exactly when the classifier offers `predict_proba` or `decision_function` |
| Risk.MarginNeverOverrides | app.py:126-128 | a classifier with `predict_proba` is read through its positive-class column whether or not it also has a `decision_function` |
| Threshold.ToFloat | app.py:106 | JSON numbers convert as they are, booleans to 1.0/0.0, strings through the float parser; null, arrays and objects are rejected |
| Threshold.Supplies | app.py:105-106 | the file supplies a threshold when it parsed to an object that has the key and whose value `float` accepts |
| Threshold.LoadThreshold | app.py:100-110 | the file's value for the key when the file parsed to an object holding a convertible value for it; the default when the file is absent, unreadable, not an object, lacks the key or holds an unconvertible value |
| Threshold.ThresholdKey | app.py:77 | the key is the one the environment names, and "XGBoost" when it names none |
| Threshold.BestThreshold | app.py:110 | the start-up threshold is the file's value for the configured key when the file supplies one, and 0.5 in every other case |
| Threshold.NoFileStartsAtHalf | app.py:100-110 | without a readable threshold file the start-up threshold is 0.5, whatever key is configured |
| Threshold.OtherEntriesIrrelevant | app.py:106 | entries other than the looked-up key never move the threshold |
| Schema.MinOf | app.py:174 | a number field's lower bound is the configured `min`, or 0.0 when none is configured |
| Schema.MaxOf | app.py:175 | a number field's upper bound is the configured `max`, or 1.0 when none is configured |
| Schema.DefaultOf | app.py:176 | a number field starts at the configured `default`, or at its lower bound when none is configured |
| Schema.OptionsOf | app.py:189 | a select box's options are the configured `options`, or [0, 1] when none are configured |
| Schema.Accepts | app.py:174-199 | a number field accepts a value within its bounds, and a select box accepts the integer of one of the values it offers |
| Schema.FormBuilt | app.py:161-199 | the form submits exactly one answer per numerical or categorical feature, and each answer is one its field accepts |
| Schema.FormAnswerInField | app.py:161-199 | what the form (`Schema.FormBuilt`, each answer `Schema.Accepts`-ed by its field) guarantees: a number field's answer lies within its bounds, and a range-pair select box answers an integer between the pair's truncated ends |
| Schema.ToInt | app.py:192 | `int()` of an option: an int stays as it is, and a float is truncated toward zero |
| Schema.IsRangePair | app.py:190-191 | an options list is read as a range exactly when it holds two entries, both ints or floats |
| Schema.Names | app.py:31-81 | the column names of a feature list, one per feature, in order |
| Schema.Truncate | app.py:192 | `int()` of a float truncates toward zero: the result lies within one of the float on the zero side |
| Schema.IntRange | app.py:193 | `range(lo, hi)` holds hi-lo values (none if hi <= lo), the i-th being lo+i |
| Schema.ExpandOptions | app.py:189-195 | a pair of numbers [lo, hi] expands to hi-lo+1 values lo, lo+1, ..., hi (none if hi < lo); any other options list is used as it is |
| Schema.ExpandedRangeMembers | app.py:190-193 | the expansion holds exactly the integers between the truncated ends, strictly ascending |
| Schema.ColumnsOfKind | app.py:112-113 | a column is listed exactly when it is a key of the table whose type is the given one |
| Schema.ColumnsOfKindInOrder | app.py:112-113 | the listed columns keep the table's order |
| Display.FeatureLabel | app.py:230 | a feature is shown under its entry in the label table, or under its own column name when it has none |
| Display.HasCode | app.py:232 | a float finds an entry of an int-keyed mapping exactly when it is integral and its integer is a key |
| Display.ScalarHasCode | app.py:197 | an option value finds an entry: an int when it is a key, a float as `HasCode` says, a string never |
| Display.HasUnit | app.py:235-236 | a unit is appended only when the unit table has a non-empty unit for the feature (`if unit`) |
| Display.UnitOrRaw | app.py:235-236 | a value with a unit is shown as `"v unit"`, and without one it is shown raw |
| Display.EchoValue | app.py:229-236 | the summary shows `"v - label"` iff the feature is mapped and its value has an entry, else the unit or raw value; a labelled value never carries a unit |
| Display.AttributionValue | app.py:265-276 | the waterfall shows `"n - label"` with the integer n iff the feature is mapped and its value is an integer the mapping has, else the unit or raw value |
| Display.EchoAndAttributionAgree | app.py:232-276 | both display paths take the same branch with the same label or unit and the same number, differing only in int-versus-float printing |
| Display.OptionCaption | app.py:196-197 | a caption is bare iff the feature has no non-empty mapping; it is `"v - label"`, with the label the mapping gives v, iff the mapping has v; otherwise v stands in for its own label |
| Display.EchoRows | app.py:228-236 | one summary row per column, in column order, pairing the feature's label with its summary value |
| Display.AttributionRows | app.py:263-276 | one waterfall entry per column, in column order, pairing the feature's label with its waterfall value |
| Display.SummaryAndWaterfallAgree | app.py:228-276 | the summary and the waterfall list the same features under the same labels, in the same order, and show the same values up to number printing |
| Attribution.PositiveBase | app.py:251-255 | the per-class baseline is the positive class's entry of an `expected_value` array with more than one entry, and `expected_value` unchanged otherwise |
| Attribution.Normalize | app.py:247-261 | a list picks entry 1 when longer than one, entry 0 otherwise, with the positive-class baseline; a structured result uses its base values if present, else `expected_value`; a bare array uses `expected_value`; only an empty list fails |
| Attribution.NormalizedWidth | app.py:247-261 | whatever the shape, the normalised vector has one entry per feature when the explainer's arrays do |
| Attribution.ShapesAgree | app.py:248-261 | a binary list, a structured result carrying the positive base, and a bare array against that base all give the same attribution |
| Consistency.NameInjective | app.py:31-81 | distinct features have distinct column names, so facts about the enumeration are facts about app.py's names |
| Consistency.SchemaKeysNamed | app.py:31-42 | the schema's keys, by name and in order, are the keys of `feature_ranges` |
| Consistency.FinalFeaturesNamed | app.py:79-81 | the modelled `FINAL_FEATURES`, by name and in order, is app.py's list |
| Consistency.MappingKeysNamed | app.py:57-64 | a feature has a value mapping exactly when its name is a key of `VALUE_MAPPINGS` |
| Consistency.UnitKeysNamed | app.py:66-71 | a feature has a unit exactly when its name is a key of `UNITS` |
| Consistency.FeatureRangesWellFormed | app.py:31-81 | `feature_ranges` has distinct keys matching its entries, and `FINAL_FEATURES` has no repeats |
| Consistency.KeysDistinct | app.py:31-42 | the schema lists each feature once |
| Consistency.FinalFeaturesDistinct | app.py:79-81 | `FINAL_FEATURES` lists each feature once |
| Consistency.FeatureEverywhere | app.py:31-81 | every feature is configured, listed in `FINAL_FEATURES` and has a human label |
| Consistency.NumericalKindOf | app.py:31-42 | exactly the four duration and age features are numerical |
| Consistency.CategoricalKindOf | app.py:31-42 | exactly the other six features are categorical |
| Consistency.FinalFeaturesPermuteSchema | app.py:31-81 | `FINAL_FEATURES` is a permutation of the keys of `feature_ranges` |
| Consistency.ColumnsPartitionSchema | app.py:112-113 | `NUM_COLS` holds the numerical features and `CAT_COLS` the rest, together covering every key |
| Consistency.ColumnsKeepSchemaOrder | app.py:112-113 | both column lists follow the schema's order |
| Consistency.DisplayTablesOf | app.py:57-71 | a feature has a value mapping iff it is not numerical, and a unit iff it is numerical |
| Consistency.DisplayTablesMatchKinds | app.py:57-71 | the mapped features are exactly `CAT_COLS` and the unit-suffixed ones exactly `NUM_COLS` |
| Consistency.FormInputsNeverMissing | app.py:161-206 | the form fills in exactly the keys of `feature_ranges`, so building its record in `FINAL_FEATURES` order succeeds: the missing-features error is unreachable from the form |
| Consistency.CodesCovered | app.py:36-64 | each categorical field offers an integer range whose every value its mapping labels |
| Consistency.OfferedValuesHaveCodes | app.py:189-199 | a categorical value the select box can produce has an entry in its mapping |
| Consistency.FormCategoricalShownCoded | app.py:185-236 | every categorical answer of the form is shown with its label, in the summary and under the waterfall |
| Consistency.NumericalHasUnitOnly | app.py:57-71 | a numerical feature has a unit and no mapping |
| Consistency.NumericalShownWithUnit | app.py:229-236 | a numerical value is always shown with its unit, on both display paths |
| Consistency.OptionCaptionsAllNamed | app.py:189-197 | every option a categorical field offers is an integer captioned `"v - label"` with the label its feature's mapping gives v, never with the value-as-label fallback |
| Consistency.OfferedOptionsHaveCodes | app.py:189-197 | every offered categorical option is an integer with an entry in its feature's mapping |
| Scoring.Assess | app.py:209-212 | the probability comes from the model; the numeric label and the narrative are those of that probability against the threshold, so the label is 1 and high risk iff the probability reaches the threshold, and 0 and low risk otherwise |
| Scoring.Summary | app.py:228-238 | the input summary has one row per column of the built record, pairing the feature's label with its summary value under the app's tables |
| Scoring.Submit | app.py:203-212 | a submission fails with the builder's error iff a required feature is absent, naming exactly the absent ones in `FINAL_FEATURES` order; it fails with the engine's error iff the record builds but the classifier has no probability output; otherwise the probability comes from the dispatched source, the record has `FINAL_FEATURES` columns holding the user's inputs, and the numeric label and narrative are those of prob against thr |
| Scoring.FormSubmissionScored | app.py:161-238 | a form submission always passes the build, and it is scored exactly when the classifier offers a probability output; its summary shows each categorical answer with its label and each numerical one with its unit |
| Scoring.SampleRecordFromForm | app.py:161-199 | example: one sample record (12 h/day, health 5, age 60, ...) is something the form can submit, so `FormBuilt` is satisfiable |
| Scoring.SampleAnswerIsValid | app.py:161-199 | example: each of the sample's answers lies within its field's bounds or among its field's options |
| Scoring.SampleNumberInBounds | app.py:174-181 | example: the sample's hours, ages and care duration lie within their number fields' bounds |
| Scoring.SampleChoiceOffered | app.py:189-199 | example: the sample's categorical answers are values their select boxes offer |
| Scoring.ScoredBelowThresholdIsLow | app.py:203-212 | a form submission that a classifier with a probability output scores 0.30 against 0.5 is labelled 0 and "Low stress risk" |
| Scoring.ScoredAtThresholdIsHigh | app.py:203-212 | a form submission that a classifier with a probability output scores exactly 0.5 against 0.5 is labelled 1 and "High stress risk" |

## Left out

- The Streamlit page setup, styling, sidebar, widgets and rendering (app.py:12-28, 153-201, 215-225, 237-238) are UI. Only what the form can submit is modelled, as `Schema.FormBuilt`.
- Loading the preprocessor and model with pickle/joblib, the file-existence checks and `st.stop()` (app.py:84-97) are I/O.
- Opening and parsing the threshold file are I/O. `Threshold.LoadThreshold` takes their outcome (`NoFile`, `Unparsable` or a parsed JSON document) as a parameter. Python's parsing of float strings is the parameter `parseFloat`.
- Scoring.Submit: does not model an exception raised by `preprocessor.transform` or by the classifier's own methods (app.py:207, 210). In the source those also end the submission through the `except` at app.py:288-289. The model assumes that the preprocessor and a classifier with a probability output return normally.
- `preprocessor.transform`, `model.predict_proba`, `decision_function` and the logistic map (app.py:125-131, 207) are foreign objects and floating-point numerics. Only the dispatch is modelled, as the parameter `m` of `Scoring.Submit`. The probability for a built record is the parameter `score`.
- The SHAP explainer, `shap.Explanation` and the matplotlib waterfall (app.py:244-246, 278-286) are library calls. Only the shape selection and the display values are modelled.
- `Attribution.Normalize` takes the explainer's arrays already flattened. It does not model how `reshape(1, -1)` flattens an array with more than one dimension.
- Number-to-text formatting is left out. This covers the percentage and threshold strings (`:.1f`, `:.2f`) and how `"v - label"` and `"v unit"` print a number. Numbers stay numbers in `Risk.Narrative` and `Display.Shown`.
- The waterfall pairs `shap_vec[0]` with the `FINAL_FEATURES` labels by position (app.py:263, 278-282). This assumes that `preprocessor.transform` keeps that column order and outputs one column per feature. The preprocessor is not part of this model, so that assumption is not checked.
- `NUM_COLS` and `CAT_COLS` (app.py:112-113) are never used after they are defined. They are modelled and related to the schema, but no operation depends on them.
- The threshold slider (app.py:155) is a widget. Its value is the parameter `thr` of `Scoring.Submit`, and `Threshold.BestThreshold` gives only where it starts.
- The `is_integer`-based step of the number fields (app.py:177-178) is widget configuration.
- The text of the `ValueError` and `RuntimeError` messages is left out. Errors are datatypes carrying the same data (the missing list).
- The `except Exception` around a submission (app.py:288-289) turns an error into an on-page message. The builder's and the engine's errors are modelled as `Scoring.SubmitError`, but the message is not. A SHAP failure (`Attribution.Normalize` on an empty list) arises after the label has been shown, and it is not threaded into `Scoring.Submit`.
- NaN and infinite floats are left out, since reals have neither. So is Python's treatment of `bool` as an `int` in an options list.
- The keep-alive browser-automation scripts are network and driver I/O, not part of this model.

=== FILE: attribution.dfy ===
/** The shape selection applied to the SHAP explainer's output before the
    waterfall is drawn (app.py): the three forms `shap_values` may return are
    brought to one contribution vector and one baseline, taking the
    positive-class slice whenever the output is per class. The attribution
    computation itself belongs to the SHAP library and is not modelled. */
module Attribution {
  import opened Results

  /** An `expected_value` or `base_values`: a scalar, or an array. */
  datatype Expected = ExpectedScalar(x: real) | ExpectedArray(xs: seq<real>)

  /** What `explainer.shap_values(X)` returned for one record. Arrays are
      given already flattened, as `reshape(1, -1)` leaves them. */
  datatype ShapOutput =
    | PerClass(slices: seq<seq<real>>)                        // a list, one array per class
    | Structured(values: seq<real>, baseValues: Option<Expected>)  // an object with `.values`, maybe `.base_values`
    | BareArray(values: seq<real>)                            // a plain array

  /** One contribution per feature, and the baseline they start from. */
  datatype Normalized = Normalized(contributions: seq<real>, base: Expected)

  /** `_sv[0]` on an empty list raises `IndexError`. */
  datatype AttributionError = EmptyClassList

  /** The baseline of a per-class output: the positive class's entry of an
      array with more than one entry, otherwise `expected_value` as it is. */
  function PositiveBase(expected: Expected): (b: Expected)
    ensures expected.ExpectedArray? && |expected.xs| > 1 ==> b == ExpectedScalar(expected.xs[1])
    ensures !(expected.ExpectedArray? && |expected.xs| > 1) ==> b == expected
  {
    if expected.ExpectedArray? && |expected.xs| > 1 then ExpectedScalar(expected.xs[1]) else expected
  }

  /** The normalisation: a list selects its entry 1 (the positive class)
      when it has more than one entry and its only entry otherwise, and in
      either case takes `expected_value[1]` as the baseline when
      `expected_value` is an array of more than one entry; a structured
      object supplies its own base values when it has them and
      `expected_value` otherwise; a bare array is taken with
      `expected_value`. An empty list is an error. */
  function Normalize(output: ShapOutput, expected: Expected): (r: Result<Normalized, AttributionError>)
    ensures r.Failure? <==> output.PerClass? && |output.slices| == 0
    ensures output.PerClass? && |output.slices| > 1 ==> r == Success(Normalized(output.slices[1], PositiveBase(expected)))
    ensures output.PerClass? && |output.slices| == 1 ==> r == Success(Normalized(output.slices[0], PositiveBase(expected)))
    ensures output.Structured? ==> r == Success(Normalized(output.values, output.baseValues.GetOr(expected)))
    ensures output.BareArray? ==> r == Success(Normalized(output.values, expected))
  {
    match output
    case PerClass(slices) =>
      if |slices| == 0 then Failure(EmptyClassList)
      else Success(Normalized(slices[if |slices| > 1 then 1 else 0], PositiveBase(expected)))
    case Structured(values, baseValues) => Success(Normalized(values, baseValues.GetOr(expected)))
    case BareArray(values) => Success(Normalized(values, expected))
  }

  /** Every slice the explainer could return holds `n` contributions. */
  predicate HasWidth(output: ShapOutput, n: nat) {
    match output
    case PerClass(slices) => forall i :: 0 <= i < |slices| ==> |slices[i]| == n
    case Structured(values, _) => |values| == n
    case BareArray(values) => |values| == n
  }

  /** Whatever the shape, a successful normalisation yields one contribution
      per feature. */
  lemma NormalizedWidth(output: ShapOutput, expected: Expected, n: nat)
    requires HasWidth(output, n)
    ensures Normalize(output, expected).Success? ==> |Normalize(output, expected).value.contributions| == n
  {
  }

  /** The three shapes agree: a binary per-class list with per-class
      expected values, a structured object carrying the positive-class base,
      and a bare array explained against that base all normalise to the same
      positive-class contributions and baseline. */
  lemma ShapesAgree(negative: seq<real>, positive: seq<real>, e0: real, e1: real)
    ensures Normalize(PerClass([negative, positive]), ExpectedArray([e0, e1]))
         == Normalize(Structured(positive, Some(ExpectedScalar(e1))), ExpectedArray([e0, e1]))
    ensures Normalize(PerClass([negative, positive]), ExpectedArray([e0, e1]))
         == Normalize(BareArray(positive), ExpectedScalar(e1))
    ensures Normalize(BareArray(positive), ExpectedScalar(e1)) == Success(Normalized(positive, ExpectedScalar(e1)))
  {
  }
}

=== FILE: consistency.dfy ===
/** The static agreement between app.py's schema constants that makes the
    form safe: `FINAL_FEATURES` lists exactly the keys of `feature_ranges`,
    `NUM_COLS` and `CAT_COLS` split those keys by type, and so whatever the
    form submits, the record builder never reports a missing feature and
    every value has a label or a unit to be shown with. */
module Consistency {
  import opened Sequences
  import opened Frames
  import opened Schema
  import opened Display

  /** The features `feature_ranges` declares numerical. */
  const NumericalFeatures: set<Feature> := {DaydurG, AgeG, AgeR, CaredurG}

  /** Distinct features have distinct column names, so a fact about the
      enumeration is a fact about the names app.py uses. */
  lemma NameInjective(a: Feature, b: Feature)
    ensures a.Name() == b.Name() ==> a == b
  {
  }

  /** The schema's keys, named, are the keys of `feature_ranges` in app.py's
      insertion order. */
  lemma SchemaKeysNamed()
    ensures Names(FeatureRanges.keys) ==
      ["daydurG", "age_G", "ageR", "caredurG", "healthR", "healthG", "adlR", "adlG", "hukou_cityR", "is_citycentre"]
  {
  }

  /** `FinalFeatures`, named, is app.py's `FINAL_FEATURES` list. */
  lemma FinalFeaturesNamed()
    ensures Names(FinalFeatures) ==
      ["daydurG", "healthR", "age_G", "adlR", "caredurG", "healthG", "ageR", "adlG", "hukou_cityR", "is_citycentre"]
  {
  }

  /** A feature has a value mapping exactly when its name is a key of
      app.py's `VALUE_MAPPINGS`. */
  lemma MappingKeysNamed(k: Feature)
    ensures k in ValueMappings <==>
      k.Name() in ["adlG", "adlR", "healthR", "hukou_cityR", "is_citycentre", "healthG"]
  {
    match k
    case DaydurG => case AgeG => case AgeR => case CaredurG =>
    case HealthR => case HealthG => case AdlR => case AdlG => case HukouCityR => case IsCitycentre =>
  }

  /** A feature has a unit exactly when its name is a key of app.py's `UNITS`. */
  lemma UnitKeysNamed(k: Feature)
    ensures k in Units <==> k.Name() in ["daydurG", "age_G", "ageR", "caredurG"]
  {
    match k
    case DaydurG => case AgeG => case AgeR => case CaredurG =>
    case HealthR => case HealthG => case AdlR => case AdlG => case HukouCityR => case IsCitycentre =>
  }

  /** `feature_ranges` is a proper dict and `FINAL_FEATURES` has no repeats. */
  lemma FeatureRangesWellFormed()
    ensures WellFormed(FeatureRanges)
    ensures Distinct(FinalFeatures)
  {
    KeysDistinct();
    FinalFeaturesDistinct();
    forall k ensures k in FeatureRanges.configs && k in FeatureRanges.keys {
      FeatureEverywhere(k);
    }
  }

  lemma KeysDistinct()
    ensures Distinct(FeatureRanges.keys)
  {
  }

  lemma FinalFeaturesDistinct()
    ensures Distinct(FinalFeatures)
  {
  }

  /** Every feature is configured, listed in `FINAL_FEATURES` and labelled. */
  lemma FeatureEverywhere(k: Feature)
    ensures k in FeatureRanges.configs && k in FeatureRanges.keys
    ensures k in FinalFeatures && k in VariableLabels
  {
  }

  lemma NumericalKindOf(k: Feature)
    ensures k in FeatureRanges.configs
    ensures FeatureRanges.configs[k].kind == NumericalKind <==> k in NumericalFeatures
  {
    match k
    case DaydurG => case AgeG => case AgeR => case CaredurG =>
    case HealthR => case HealthG => case AdlR => case AdlG => case HukouCityR => case IsCitycentre =>
  }

  lemma CategoricalKindOf(k: Feature)
    ensures k in FeatureRanges.configs
    ensures FeatureRanges.configs[k].kind == CategoricalKind <==> k !in NumericalFeatures
  {
    match k
    case DaydurG => case AgeG => case AgeR => case CaredurG =>
    case HealthR => case HealthG => case AdlR => case AdlG => case HukouCityR => case IsCitycentre =>
  }

  /** `FINAL_FEATURES` is a reordering of the keys of `feature_ranges`. */
  lemma FinalFeaturesPermuteSchema()
    ensures forall k :: k in FinalFeatures <==> k in FeatureRanges.configs
    ensures multiset(FinalFeatures) == multiset(FeatureRanges.keys)
  {
    forall k ensures k in FinalFeatures && k in FeatureRanges.configs && k in FeatureRanges.keys {
      FeatureEverywhere(k);
    }
    FeatureRangesWellFormed();
    DistinctSameElementsPermutation(FinalFeatures, FeatureRanges.keys);
  }

  /** `NUM_COLS` and `CAT_COLS` split the schema's keys by type: the
      numerical features and the rest. */
  lemma ColumnsPartitionSchema()
    ensures forall k :: k in NumCols <==> k in NumericalFeatures
    ensures forall k :: k in CatCols <==> k !in NumericalFeatures
    ensures forall k :: k in FeatureRanges.configs <==> k in NumCols || k in CatCols
  {
    forall k ensures (k in NumCols <==> k in NumericalFeatures) && (k in CatCols <==> k !in NumericalFeatures) {
      FeatureEverywhere(k);
      NumericalKindOf(k);
      CategoricalKindOf(k);
    }
  }

  /** Both column lists keep the schema's order. */
  lemma ColumnsKeepSchemaOrder()
    ensures IsSubsequence(NumCols, FeatureRanges.keys) && IsSubsequence(CatCols, FeatureRanges.keys)
  {
    ColumnsOfKindInOrder(FeatureRanges.keys, FeatureRanges.configs, NumericalKind);
    ColumnsOfKindInOrder(FeatureRanges.keys, FeatureRanges.configs, CategoricalKind);
  }

  /** Mapped features are the categorical ones, and unit-suffixed features
      the numerical ones. */
  lemma DisplayTablesMatchKinds()
    ensures forall k :: k in ValueMappings <==> k in CatCols
    ensures forall k :: HasUnit(Units, k) <==> k in NumCols
  {
    ColumnsPartitionSchema();
    forall k ensures (k in ValueMappings <==> k !in NumericalFeatures) && (HasUnit(Units, k) <==> k in NumericalFeatures) {
      DisplayTablesOf(k);
    }
  }

  lemma DisplayTablesOf(k: Feature)
    ensures k in ValueMappings <==> k !in NumericalFeatures
    ensures HasUnit(Units, k) <==> k in NumericalFeatures
  {
    match k
    case DaydurG => case AgeG => case AgeR => case CaredurG =>
    case HealthR => case HealthG => case AdlR => case AdlG => case HukouCityR => case IsCitycentre =>
  }

  /** The form fills in exactly the keys of `feature_ranges`, so whatever it
      submits, building the record in `FINAL_FEATURES` order succeeds: the
      missing-features error cannot be raised from the form. */
  lemma FormInputsNeverMissing(inputs: map<Feature, real>)
    requires FormBuilt(FeatureRanges, inputs)
    ensures inputs.Keys == FeatureRanges.configs.Keys
    ensures EnsureFeatureFrame(inputs, FinalFeatures).Success?
    ensures EnsureFeatureFrame(inputs, FinalFeatures).value.columns == FinalFeatures
  {
    forall k ensures k in inputs && k in FeatureRanges.configs {
      NumericalKindOf(k);
      CategoricalKindOf(k);
    }
  }

  /** Each categorical field offers an integer range, and its value mapping
      labels every integer of that range. */
  lemma CodesCovered(k: Feature)
    requires k !in NumericalFeatures
    ensures k in FeatureRanges.configs && k in ValueMappings
    ensures IsRangePair(OptionsOf(FeatureRanges.configs[k]))
    ensures var opts := OptionsOf(FeatureRanges.configs[k]);
      forall n :: ToInt(opts[0]) <= n <= ToInt(opts[1]) ==> n in ValueMappings[k]
  {
    match k
    case HealthR => case HealthG => case AdlR => case AdlG => case HukouCityR => case IsCitycentre =>
  }

  /** A categorical feature's value that is the integer of one of the
      options it offers has an entry in the feature's mapping. */
  lemma OfferedValuesHaveCodes(k: Feature, x: real)
    requires k !in NumericalFeatures
    requires exists v :: v in ExpandOptions(OptionsOf(FeatureRanges.configs[k])) && v.IsNumber() && x == ToInt(v) as real
    ensures k in ValueMappings && HasCode(ValueMappings[k], x)
  {
    CodesCovered(k);
    var opts := OptionsOf(FeatureRanges.configs[k]);
    var v :| v in ExpandOptions(opts) && v.IsNumber() && x == ToInt(v) as real;
    ExpandedRangeMembers(opts);
    assert v.i in ValueMappings[k];
  }

  /** A categorical value the form submits always has a label in its
      mapping, so both the echo and the waterfall show it as `"v - label"`. */
  lemma FormCategoricalShownCoded(inputs: map<Feature, real>, k: Feature)
    requires FormBuilt(FeatureRanges, inputs)
    requires k in inputs && k !in NumericalFeatures
    ensures EchoValue(ValueMappings, Units, k, inputs[k]).Coded?
    ensures AttributionValue(ValueMappings, Units, k, inputs[k]).Coded?
  {
    CategoricalKindOf(k);
    OfferedValuesHaveCodes(k, inputs[k]);
  }

  /** A numerical feature has a unit and no value mapping. */
  lemma NumericalHasUnitOnly(k: Feature)
    requires k in NumericalFeatures
    ensures k !in ValueMappings && HasUnit(Units, k)
  {
    DisplayTablesOf(k);
  }

  /** A numerical value is always shown with its unit, never with a label. */
  lemma NumericalShownWithUnit(k: Feature, v: real)
    requires k in NumericalFeatures
    ensures k in Units
    ensures EchoValue(ValueMappings, Units, k, v) == WithUnit(v, Units[k])
    ensures AttributionValue(ValueMappings, Units, k, v) == WithUnit(v, Units[k])
  {
    NumericalHasUnitOnly(k);
  }

  /** Every option a categorical field offers is an integer captioned with
      its own label from the feature's mapping. */
  lemma OptionCaptionsAllNamed(k: Feature, v: Scalar)
    requires k !in NumericalFeatures
    requires v in ExpandOptions(OptionsOf(FeatureRanges.configs[k]))
    ensures v.IntS? && k in ValueMappings && v.i in ValueMappings[k]
    ensures OptionCaption(ValueMappings, k, v) == Captioned(v, ValueMappings[k][v.i])
  {
    OfferedOptionsHaveCodes(k, v);
  }

  lemma OfferedOptionsHaveCodes(k: Feature, v: Scalar)
    requires k !in NumericalFeatures
    requires v in ExpandOptions(OptionsOf(FeatureRanges.configs[k]))
    ensures v.IntS?
    ensures k in ValueMappings && ScalarHasCode(ValueMappings[k], v)
  {
    CodesCovered(k);
    ExpandedRangeMembers(OptionsOf(FeatureRanges.configs[k]));
    assert v.i in ValueMappings[k];
  }
}

=== FILE: display.dfy ===
/** How app.py shows a feature and its value: the captions of a select box's
    options, the "Input summary" echo table, and the display values paired
    with the SHAP waterfall. A value is a row cell after pandas has put the
    whole row into one float64 series, so it is a real here; numbers are kept
    as numbers (their rendering as text is not modelled). */
module Display {
  import opened Frames
  import opened Schema

  /** `VARIABLE_LABELS_DICT.get(k, k)`: a feature's human label, or its own name. */
  function FeatureLabel(labels: map<Feature, string>, k: Feature): (l: string)
    ensures k in labels ==> l == labels[k]
    ensures k !in labels ==> l == k.Name()
  {
    if k in labels then labels[k] else k.Name()
  }

  /** Python's `v in mapping` for a float `v` and an int-keyed dict: a float
      finds the entry of the integer it equals, and no other. */
  predicate HasCode(mapping: map<int, string>, v: real) {
    v == v.Floor as real && v.Floor in mapping
  }

  /** Python's `v in mapping` for an option value. */
  predicate ScalarHasCode(mapping: map<int, string>, v: Scalar) {
    match v
    case IntS(i) => i in mapping
    case FloatS(x) => HasCode(mapping, x)
    case TextS(_) => false
  }

  /** A number as it is printed: as an int (`1`) or as a float (`1.0`). */
  datatype Numeral = AsInt(i: int) | AsFloat(x: real) {
    function Value(): real {
      match this
      case AsInt(i) => i as real
      case AsFloat(x) => x
    }
  }

  /** A displayed value: `"v - label"`, `"v unit"`, or the raw value. */
  datatype Shown = Coded(number: Numeral, meaning: string) | WithUnit(value: real, unit: string) | Plain(value: real)

  /** A unit suffix is added only for a non-empty unit (`if unit` in Python). */
  predicate HasUnit(units: map<Feature, string>, k: Feature) {
    k in units && units[k] != ""
  }

  /** The unit-or-raw fallback both display paths share. */
  function UnitOrRaw(units: map<Feature, string>, k: Feature, v: real): (d: Shown)
    ensures HasUnit(units, k) ==> d == WithUnit(v, units[k])
    ensures !HasUnit(units, k) ==> d == Plain(v)
  {
    if HasUnit(units, k) then WithUnit(v, units[k]) else Plain(v)
  }

  /** The "Input summary" value of feature `k`: a mapped feature whose value
      has an entry shows `"v - label"` with the float as pandas holds it;
      otherwise a unit suffix if the feature has one; otherwise the raw
      value. A value shown with its label never carries a unit. */
  function EchoValue(mappings: map<Feature, map<int, string>>, units: map<Feature, string>, k: Feature, v: real): (d: Shown)
    ensures d.Coded? <==> k in mappings && HasCode(mappings[k], v)
    ensures d.Coded? ==> d.number == AsFloat(v) && d.meaning == mappings[k][v.Floor]
    ensures !d.Coded? ==> d == UnitOrRaw(units, k, v)
  {
    if k in mappings && HasCode(mappings[k], v) then Coded(AsFloat(v), mappings[k][v.Floor])
    else UnitOrRaw(units, k, v)
  }

  /** The waterfall's display value of feature `k`: a mapped feature first
      turns an integral float into an int, and shows `"n - label"` when the
      mapping has `n`; every other case falls back to the unit or the raw
      value, as the echo does. */
  function AttributionValue(mappings: map<Feature, map<int, string>>, units: map<Feature, string>, k: Feature, v: real): (d: Shown)
    ensures d.Coded? <==> k in mappings && HasCode(mappings[k], v)
    ensures d.Coded? ==> d.number == AsInt(v.Floor) && d.meaning == mappings[k][v.Floor]
    ensures !d.Coded? ==> d == UnitOrRaw(units, k, v)
  {
    if k in mappings then
      var mapping := mappings[k];
      var integral := v == v.Floor as real;
      if integral && v.Floor in mapping then Coded(AsInt(v.Floor), mapping[v.Floor])
      else UnitOrRaw(units, k, v)
    else UnitOrRaw(units, k, v)
  }

  /** The two display paths agree on everything but how a labelled number is
      printed: they take the same branch, show the same label or unit, and
      print the same number (`1.0 - Poor` in the echo, `1 - Poor` under the
      waterfall). */
  lemma EchoAndAttributionAgree(mappings: map<Feature, map<int, string>>, units: map<Feature, string>, k: Feature, v: real)
    ensures EchoValue(mappings, units, k, v).Coded? == AttributionValue(mappings, units, k, v).Coded?
    ensures EchoValue(mappings, units, k, v).Coded? ==>
      && EchoValue(mappings, units, k, v).meaning == AttributionValue(mappings, units, k, v).meaning
      && EchoValue(mappings, units, k, v).number.Value() == v
      && AttributionValue(mappings, units, k, v).number.Value() == v
    ensures !EchoValue(mappings, units, k, v).Coded? ==> EchoValue(mappings, units, k, v) == AttributionValue(mappings, units, k, v)
  {
  }

  /** The caption of a select-box option. */
  datatype Caption =
    | Captioned(value: Scalar, meaning: string)  // "v - label"
    | SelfCaptioned(value: Scalar)                // "v - v": a mapped feature's value the mapping lacks
    | Bare(value: Scalar)                         // "v": a feature without a mapping

  /** The option caption of value `v` of feature `k`: with a non-empty
      mapping, `"v - label"`, where a value the mapping lacks stands in for
      its own label; without one, the value alone. */
  function OptionCaption(mappings: map<Feature, map<int, string>>, k: Feature, v: Scalar): (c: Caption)
    ensures c.value == v
    ensures c.Bare? <==> k !in mappings || |mappings[k]| == 0
    ensures c.Captioned? <==> k in mappings && ScalarHasCode(mappings[k], v)
    ensures c.Captioned? ==> c.meaning == mappings[k][if v.IntS? then v.i else v.x.Floor]
  {
    var mapping := if k in mappings then mappings[k] else map[];
    if |mapping| == 0 then Bare(v)
    else match v
      case IntS(i) => if i in mapping then Captioned(v, mapping[i]) else SelfCaptioned(v)
      case FloatS(x) => if HasCode(mapping, x) then Captioned(v, mapping[x.Floor]) else SelfCaptioned(v)
      case TextS(_) => SelfCaptioned(v)
  }

  /** The "Input summary" table of a built record: one (label, value) row per
      column, in column order. */
  function EchoRows(frame: Frame<Feature, real>, labels: map<Feature, string>, mappings: map<Feature, map<int, string>>, units: map<Feature, string>): (rows: seq<(string, Shown)>)
    requires |frame.row| == |frame.columns|
    ensures |rows| == |frame.columns|
    ensures forall i :: 0 <= i < |rows| ==>
      rows[i] == (FeatureLabel(labels, frame.columns[i]), EchoValue(mappings, units, frame.columns[i], frame.row[i]))
  {
    seq(|frame.columns|, i requires 0 <= i < |frame.columns| =>
      (FeatureLabel(labels, frame.columns[i]), EchoValue(mappings, units, frame.columns[i], frame.row[i])))
  }

  /** The feature names and display values handed to the waterfall, one per
      column of the built record, in column order. */
  function AttributionRows(frame: Frame<Feature, real>, labels: map<Feature, string>, mappings: map<Feature, map<int, string>>, units: map<Feature, string>): (rows: seq<(string, Shown)>)
    requires |frame.row| == |frame.columns|
    ensures |rows| == |frame.columns|
    ensures forall i :: 0 <= i < |rows| ==>
      rows[i] == (FeatureLabel(labels, frame.columns[i]), AttributionValue(mappings, units, frame.columns[i], frame.row[i]))
  {
    seq(|frame.columns|, i requires 0 <= i < |frame.columns| =>
      (FeatureLabel(labels, frame.columns[i]), AttributionValue(mappings, units, frame.columns[i], frame.row[i])))
  }

  /** The summary table and the waterfall list the same features under the
      same labels, in the same order, and show each value the same way up to
      how a labelled number is printed. */
  lemma SummaryAndWaterfallAgree(frame: Frame<Feature, real>, labels: map<Feature, string>, mappings: map<Feature, map<int, string>>, units: map<Feature, string>)
    requires |frame.row| == |frame.columns|
    ensures |EchoRows(frame, labels, mappings, units)| == |AttributionRows(frame, labels, mappings, units)|
    ensures forall i :: 0 <= i < |frame.columns| ==>
      var echo, waterfall := EchoRows(frame, labels, mappings, units)[i], AttributionRows(frame, labels, mappings, units)[i];
      && echo.0 == waterfall.0
      && echo.1.Coded? == waterfall.1.Coded?
      && (echo.1.Coded? ==> echo.1.meaning == waterfall.1.meaning && echo.1.number.Value() == waterfall.1.number.Value())
      && (!echo.1.Coded? ==> echo.1 == waterfall.1)
  {
    forall i | 0 <= i < |frame.columns| {
      EchoAndAttributionAgree(mappings, units, frame.columns[i], frame.row[i]);
    }
  }
}

=== FILE: frames.dfy ===
/** The record builder `ensure_feature_dataframe` (app.py): a mapping from
    feature name to value becomes a one-row table whose columns are exactly
    the required feature order, or the call fails naming every absent
    feature. Nothing is ever filled in by default. */
module Frames {
  import opened Results
  import opened Sequences

  /** A one-row table: its column names in order, and the row's value under each. */
  datatype Frame<K, V> = Frame(columns: seq<K>, row: seq<V>)

  /** The `ValueError("Missing required features: ...")` the builder raises,
      carrying the list it prints. */
  datatype BuildError<K> = MissingFeatures(missing: seq<K>)

  /** The names of `order` that are not in `present`, in the order of
      `order` and with its repeats. */
  function Absent<K(!new)>(order: seq<K>, present: set<K>): (r: seq<K>)
    ensures forall c :: c in r <==> c in order && c !in present
    ensures |r| <= |order|
  {
    if |order| == 0 then []
    else if order[0] in present then Absent(order[1..], present)
    else [order[0]] + Absent(order[1..], present)
  }

  /** The missing list keeps the order of the required feature order. */
  lemma {:induction false} AbsentIsSubsequence<K(!new)>(order: seq<K>, present: set<K>)
    ensures IsSubsequence(Absent(order, present), order)
  {
    if |order| > 0 {
      var rest := Absent(order[1..], present);
      AbsentIsSubsequence(order[1..], present);
      if order[0] !in present {
        assert Absent(order, present)[1..] == rest;
      }
    }
  }

  /** Every absent name is listed as often as the order requires it, and no
      present name is listed: with `AbsentIsSubsequence` this pins the list
      down to the order with the present names struck out. */
  lemma {:induction false} AbsentCounts<K(!new)>(order: seq<K>, present: set<K>)
    ensures forall c :: multiset(Absent(order, present))[c] == if c in present then 0 else multiset(order)[c]
  {
    if |order| > 0 {
      AbsentCounts(order[1..], present);
      assert order == [order[0]] + order[1..];
      assert multiset(order) == multiset([order[0]]) + multiset(order[1..]);
      if order[0] !in present {
        var r := Absent(order, present);
        assert r == [order[0]] + Absent(order[1..], present);
        assert multiset(r) == multiset([order[0]]) + multiset(Absent(order[1..], present));
      }
    }
  }

  /** Which names are missing depends only on which of the required names are
      present, never on the other keys of the input. */
  lemma {:induction false} AbsentReadsOnlyOrder<K(!new)>(order: seq<K>, a: set<K>, b: set<K>)
    requires forall c :: c in order ==> (c in a <==> c in b)
    ensures Absent(order, a) == Absent(order, b)
  {
    if |order| > 0 {
      assert order[0] in order;
      assert forall c :: c in order[1..] ==> c in order;
      AbsentReadsOnlyOrder(order[1..], a, b);
    }
  }

  /** `ensure_feature_dataframe(input_dict, feature_order)`: fails iff some
      required name is not a key of the input, listing exactly the absent
      names; otherwise the columns are the required order and each cell holds
      the input's value for its column. */
  function EnsureFeatureFrame<K(!new), V>(input: map<K, V>, order: seq<K>): (r: Result<Frame<K, V>, BuildError<K>>)
    ensures r.Failure? <==> exists c :: c in order && c !in input
    ensures r.Failure? ==> r.error.missing == Absent(order, input.Keys)
    ensures r.Failure? ==> forall c :: c in r.error.missing <==> c in order && c !in input
    ensures r.Success? ==> r.value.columns == order && |r.value.row| == |order|
    ensures r.Success? ==> forall i :: 0 <= i < |order| ==> order[i] in input && r.value.row[i] == input[order[i]]
  {
    var missing := Absent(order, input.Keys);
    if |missing| > 0 then
      assert missing[0] in missing;
      Failure(MissingFeatures(missing))
    else
      assert forall c :: c in order ==> c in input;
      Success(Frame(order, seq(|order|, i requires 0 <= i < |order| => input[order[i]])))
  }

  /** Keys outside the required order are dropped, and the input's own key
      order plays no part: two inputs that agree on the required names build
      the same table (or the same error). */
  lemma BuildIgnoresOtherKeys<K(!new), V>(a: map<K, V>, b: map<K, V>, order: seq<K>)
    requires forall c :: c in order ==> (c in a <==> c in b)
    requires forall c :: c in order && c in a ==> a[c] == b[c]
    ensures EnsureFeatureFrame(a, order) == EnsureFeatureFrame(b, order)
  {
    AbsentReadsOnlyOrder(order, a.Keys, b.Keys);
    var ra, rb := EnsureFeatureFrame(a, order), EnsureFeatureFrame(b, order);
    if ra.Success? {
      assert rb.Success?;
      assert ra.value.row == rb.value.row;
    }
  }
}

=== FILE: results.dfy ===
/** Failure-carrying datatypes used throughout the model: an optional value
    (a Python `None` or a missing dictionary entry) and a result that is
    either a value or the error the Python code would raise. */
module Results {

  datatype Option<+T> = None | Some(value: T) {

    /** The value, or `default` when there is none (Python's `d.get(k, default)`). */
    function GetOr(default: T): T {
      match this
      case Some(v) => v
      case None => default
    }
  }

  datatype Result<+T, +E> = Success(value: T) | Failure(error: E)
}

=== FILE: risk.dfy ===
/** Turning a probability into a label (`risk_narrative` and the
    `pred = int(prob >= thr)` line of app.py), and the order in which the
    probability engine (`predict_proba` in app.py) asks the classifier for a
    probability. Probabilities and thresholds are Python floats, modelled as
    exact reals. */
module Risk {
  import opened Results

  const HighLabel := "High stress risk"
  const LowLabel := "Low stress risk"
  const HighAdvice := "This screening suggests a high risk of stress. "
  const LowAdvice := "No immediate concern indicated by this model."

  /** How the paragraph relates the probability to the threshold: `≥` or `<`. */
  datatype Comparison = AtLeast | Below

  /** The `(label, paragraph)` pair. The paragraph restates the probability
      and the threshold it was compared with, the comparison, and a closing
      sentence; the rendering of the two numbers as text is not modelled. */
  datatype Narrative = Narrative(riskLabel: string, probability: real, comparison: Comparison, threshold: real, advice: string)

  /** `risk_narrative(prob, thr)`: high risk exactly when the probability
      reaches the threshold, the boundary counting as high. */
  function RiskNarrative(prob: real, thr: real): (n: Narrative)
    ensures n.riskLabel == HighLabel <==> prob >= thr
    ensures n.riskLabel == LowLabel <==> prob < thr
    ensures n.comparison == AtLeast <==> n.riskLabel == HighLabel
    ensures n.advice == (if n.riskLabel == HighLabel then HighAdvice else LowAdvice)
    ensures n.probability == prob && n.threshold == thr
  {
    if prob >= thr then Narrative(HighLabel, prob, AtLeast, thr, HighAdvice)
    else Narrative(LowLabel, prob, Below, thr, LowAdvice)
  }

  /** `int(prob >= thr)`: the numeric label shown beside the narrative. */
  function PredictedLabel(prob: real, thr: real): (pred: int)
    ensures pred == 0 || pred == 1
    ensures pred == 1 <==> prob >= thr
  {
    if prob >= thr then 1 else 0
  }

  /** The numeric label and the narrative never disagree: 1 goes with the
      high-risk text and 0 with the low-risk text. */
  lemma PredictionMatchesNarrative(prob: real, thr: real)
    ensures PredictedLabel(prob, thr) == 1 <==> RiskNarrative(prob, thr).riskLabel == HighLabel
    ensures PredictedLabel(prob, thr) == 0 <==> RiskNarrative(prob, thr).riskLabel == LowLabel
  {
  }

  /** Relabelling with a lower threshold never turns a high-risk case into a
      low-risk one, and a higher probability never lowers the label. */
  lemma LabelMonotone(p1: real, p2: real, t1: real, t2: real)
    requires p1 <= p2 && t2 <= t1
    ensures PredictedLabel(p1, t1) <= PredictedLabel(p2, t2)
  {
  }

  /** What the classifier offers: `predict_proba` and/or `decision_function`. */
  datatype ModelSurface = ModelSurface(hasPredictProba: bool, hasDecisionFunction: bool)

  /** Where the probability comes from: the positive-class column of
      `predict_proba`, or the logistic image of the margin. */
  datatype ProbabilitySource = PositiveColumn | LogisticOfMargin

  /** The `RuntimeError("Model does not support probability outputs")`. */
  datatype EngineError = UnsupportedModel

  /** The dispatch of `predict_proba(model, X)`: a probability output wins
      over a margin, and a model with neither is rejected. */
  function ProbabilitySourceOf(m: ModelSurface): (r: Result<ProbabilitySource, EngineError>)
    ensures r == Success(PositiveColumn) <==> m.hasPredictProba
    ensures r == Success(LogisticOfMargin) <==> !m.hasPredictProba && m.hasDecisionFunction
    ensures r == Failure(UnsupportedModel) <==> !m.hasPredictProba && !m.hasDecisionFunction
  {
    if m.hasPredictProba then Success(PositiveColumn)
    else if m.hasDecisionFunction then Success(LogisticOfMargin)
    else Failure(UnsupportedModel)
  }

  /** The dispatch succeeds exactly when the classifier offers at least one
      of the two outputs. */
  lemma DispatchSucceedsIffSomeOutput(m: ModelSurface)
    ensures ProbabilitySourceOf(m).Success? <==> m.hasPredictProba || m.hasDecisionFunction
  {
  }

  /** A classifier with `predict_proba` is read the same way whether or not
      it also has a `decision_function`: the margin never overrides the
      probability output. */
  lemma MarginNeverOverrides(margin1: bool, margin2: bool)
    ensures ProbabilitySourceOf(ModelSurface(true, margin1)) == ProbabilitySourceOf(ModelSurface(true, margin2))
    ensures ProbabilitySourceOf(ModelSurface(true, margin1)) == Success(PositiveColumn)
  {
  }
}

=== FILE: schema.dfy ===
/** The feature schema of the caregiver-stress calculator (app.py): the
    per-feature configuration table `feature_ranges`, the column order the
    preprocessor was fitted on (`FINAL_FEATURES`), the numerical/categorical
    column lists, how a categorical field's `options` become the values it
    offers, the display tables, and what the input form can hand to the
    record builder. */
module Schema {
  import opened Results
  import opened Sequences

  /** A scalar as an `options` list can hold it: a Python int, float or str. */
  datatype Scalar = IntS(i: int) | FloatS(x: real) | TextS(s: string) {

    /** `isinstance(x, (int, float))` */
    predicate IsNumber() {
      IntS? || FloatS?
    }
  }

  /** Python's `int(x)` on a float: truncation toward zero. */
  function Truncate(x: real): (n: int)
    ensures 0.0 <= x ==> 0 <= n && n as real <= x < n as real + 1.0
    ensures x < 0.0 ==> n <= 0 && n as real - 1.0 < x <= n as real
  {
    if x >= 0.0 then x.Floor else -((-x).Floor)
  }

  /** Python's `int(v)` on a number. */
  function ToInt(v: Scalar): (n: int)
    requires v.IsNumber()
    ensures v.IntS? ==> n == v.i
    ensures v.FloatS? ==> n == Truncate(v.x)
  {
    if v.IntS? then v.i else Truncate(v.x)
  }

  const NumericalKind := "numerical"
  const CategoricalKind := "categorical"

  /** One entry of `feature_ranges`: its `"type"` and the optional keys the
      form reads with `cfg.get`. */
  datatype FeatureConfig = FeatureConfig(
    kind: string,
    min: Option<real>,
    max: Option<real>,
    default: Option<real>,
    options: Option<seq<Scalar>>)

  function Numerical(min: real, max: real, default: real): FeatureConfig {
    FeatureConfig(NumericalKind, Some(min), Some(max), Some(default), None)
  }

  function Categorical(options: seq<Scalar>): FeatureConfig {
    FeatureConfig(CategoricalKind, None, None, None, Some(options))
  }

  /** The number field's bounds and initial value: `min` falls back to 0.0,
      `max` to 1.0 and `default` to the minimum. */
  function MinOf(c: FeatureConfig): (lo: real)
    ensures c.min.Some? ==> lo == c.min.value
    ensures c.min.None? ==> lo == 0.0
  {
    c.min.GetOr(0.0)
  }

  function MaxOf(c: FeatureConfig): (hi: real)
    ensures c.max.Some? ==> hi == c.max.value
    ensures c.max.None? ==> hi == 1.0
  {
    c.max.GetOr(1.0)
  }

  function DefaultOf(c: FeatureConfig): (d: real)
    ensures c.default.Some? ==> d == c.default.value
    ensures c.default.None? ==> d == MinOf(c)
  {
    c.default.GetOr(MinOf(c))
  }

  /** A categorical field's `options`, falling back to `[0, 1]`. */
  function OptionsOf(c: FeatureConfig): (opts: seq<Scalar>)
    ensures c.options.Some? ==> opts == c.options.value
    ensures c.options.None? ==> opts == [IntS(0), IntS(1)]
  {
    c.options.GetOr([IntS(0), IntS(1)])
  }

  /** The ten features of the calculator; `Name` is the column name the
      source uses for each. */
  datatype Feature =
    | DaydurG | AgeG | AgeR | CaredurG | HealthR | HealthG | AdlR | AdlG | HukouCityR | IsCitycentre
  {
    function Name(): string {
      match this
      case DaydurG => "daydurG"
      case AgeG => "age_G"
      case AgeR => "ageR"
      case CaredurG => "caredurG"
      case HealthR => "healthR"
      case HealthG => "healthG"
      case AdlR => "adlR"
      case AdlG => "adlG"
      case HukouCityR => "hukou_cityR"
      case IsCitycentre => "is_citycentre"
    }
  }

  /** The column names of a list of features. */
  function Names(fs: seq<Feature>): (ns: seq<string>)
    ensures |ns| == |fs|
    ensures forall i :: 0 <= i < |fs| ==> ns[i] == fs[i].Name()
  {
    seq(|fs|, i requires 0 <= i < |fs| => fs[i].Name())
  }

  /** A Python dict from feature to configuration: its keys in insertion
      order, and the entries. */
  datatype FeatureTable = FeatureTable(keys: seq<Feature>, configs: map<Feature, FeatureConfig>)

  /** The keys are listed once each and are exactly the entries' keys. */
  ghost predicate WellFormed(t: FeatureTable) {
    && Distinct(t.keys)
    && forall k :: k in t.configs <==> k in t.keys
  }

  /** `list(range(lo, hi))` as scalars. */
  function IntRange(lo: int, hi: int): (r: seq<Scalar>)
    ensures |r| == if lo <= hi then hi - lo else 0
    ensures forall i :: 0 <= i < |r| ==> r[i] == IntS(lo + i)
    decreases hi - lo
  {
    if hi <= lo then [] else [IntS(lo)] + IntRange(lo + 1, hi)
  }

  /** An options list read as an inclusive integer range: exactly two numbers. */
  predicate IsRangePair(opts: seq<Scalar>) {
    |opts| == 2 && opts[0].IsNumber() && opts[1].IsNumber()
  }

  /** The values a categorical field offers: a pair of numbers `[lo, hi]`
      expands to `lo, lo+1, ..., hi` (both ends truncated to integers first);
      any other options list is offered as it is. */
  function ExpandOptions(opts: seq<Scalar>): (values: seq<Scalar>)
    ensures IsRangePair(opts) ==>
      var lo, hi := ToInt(opts[0]), ToInt(opts[1]);
      && |values| == (if lo <= hi then hi - lo + 1 else 0)
      && forall i :: 0 <= i < |values| ==> values[i] == IntS(lo + i)
    ensures !IsRangePair(opts) ==> values == opts
  {
    if IsRangePair(opts) then IntRange(ToInt(opts[0]), ToInt(opts[1]) + 1) else opts
  }

  /** The expansion of a pair holds exactly the integers between its ends,
      in strictly ascending order. */
  lemma ExpandedRangeMembers(opts: seq<Scalar>)
    requires IsRangePair(opts)
    ensures forall v :: v in ExpandOptions(opts) <==> v.IntS? && ToInt(opts[0]) <= v.i <= ToInt(opts[1])
    ensures forall i, j :: 0 <= i < j < |ExpandOptions(opts)| ==> ExpandOptions(opts)[i].i < ExpandOptions(opts)[j].i
  {
    var values, lo := ExpandOptions(opts), ToInt(opts[0]);
    forall v: Scalar | v.IntS? && lo <= v.i <= ToInt(opts[1]) ensures v in values {
      assert values[v.i - lo] == v;
    }
  }

  /** `[k for k, cfg in feature_ranges.items() if cfg["type"] == kind]`. */
  function ColumnsOfKind(keys: seq<Feature>, configs: map<Feature, FeatureConfig>, kind: string): (cols: seq<Feature>)
    requires forall k :: k in keys ==> k in configs
    ensures forall k :: k in cols <==> k in keys && configs[k].kind == kind
  {
    if |keys| == 0 then []
    else
      var rest := ColumnsOfKind(keys[1..], configs, kind);
      if configs[keys[0]].kind == kind then [keys[0]] + rest else rest
  }

  /** The selected columns keep the table's order. */
  lemma {:induction false} ColumnsOfKindInOrder(keys: seq<Feature>, configs: map<Feature, FeatureConfig>, kind: string)
    requires forall k :: k in keys ==> k in configs
    ensures IsSubsequence(ColumnsOfKind(keys, configs, kind), keys)
  {
    if |keys| > 0 {
      ColumnsOfKindInOrder(keys[1..], configs, kind);
      var cols := ColumnsOfKind(keys, configs, kind);
      if configs[keys[0]].kind == kind {
        assert cols[1..] == ColumnsOfKind(keys[1..], configs, kind);
      }
    }
  }

  /** A value the field for `cfg` can produce: a number field's value lies
      within its bounds; a select box's value is the integer of one of the
      values the field offers. */
  ghost predicate Accepts(cfg: FeatureConfig, x: real) {
    && (cfg.kind == NumericalKind ==> MinOf(cfg) <= x <= MaxOf(cfg))
    && (cfg.kind == CategoricalKind ==>
          exists v :: v in ExpandOptions(OptionsOf(cfg)) && v.IsNumber() && x == ToInt(v) as real)
  }

  /** What submitting the form can hand to the record builder: one entry per
      numerical or categorical feature of the table and no other, each a
      value its field can produce. */
  ghost predicate FormBuilt(t: FeatureTable, inputs: map<Feature, real>) {
    && (forall k :: k in inputs <==> k in t.configs && t.configs[k].kind in {NumericalKind, CategoricalKind})
    && (forall k :: k in inputs ==> Accepts(t.configs[k], inputs[k]))
  }

  /** What the form guarantees of each answer: a number field's answer lies
      within the field's bounds, and a select box over a range pair answers
      an integer between the pair's truncated ends. */
  lemma FormAnswerInField(t: FeatureTable, inputs: map<Feature, real>, k: Feature)
    requires FormBuilt(t, inputs)
    requires k in inputs
    ensures k in t.configs
    ensures t.configs[k].kind == NumericalKind ==> MinOf(t.configs[k]) <= inputs[k] <= MaxOf(t.configs[k])
    ensures t.configs[k].kind == CategoricalKind && IsRangePair(OptionsOf(t.configs[k])) ==>
      var opts := OptionsOf(t.configs[k]);
      && inputs[k] == inputs[k].Floor as real
      && ToInt(opts[0]) <= inputs[k].Floor <= ToInt(opts[1])
  {
    var cfg := t.configs[k];
    if cfg.kind == CategoricalKind && IsRangePair(OptionsOf(cfg)) {
      var v :| v in ExpandOptions(OptionsOf(cfg)) && v.IsNumber() && inputs[k] == ToInt(v) as real;
      ExpandedRangeMembers(OptionsOf(cfg));
    }
  }

  // ---------------------------------------------------------------- constants

  /** `feature_ranges` */
  const FeatureRanges := FeatureTable(
    [DaydurG, AgeG, AgeR, CaredurG, HealthR, HealthG, AdlR, AdlG, HukouCityR, IsCitycentre],
    map[
      DaydurG := Numerical(0.0, 24.0, 12.0),
      AgeG := Numerical(0.0, 120.0, 60.0),
      AgeR := Numerical(60.0, 120.0, 60.0),
      CaredurG := Numerical(0.0, 120.0, 60.0),
      HealthR := Categorical([IntS(1), IntS(5)]),
      HealthG := Categorical([IntS(1), IntS(5)]),
      AdlR := Categorical([IntS(0), IntS(3)]),
      AdlG := Categorical([IntS(0), IntS(3)]),
      HukouCityR := Categorical([IntS(0), IntS(1)]),
      IsCitycentre := Categorical([IntS(0), IntS(1)])
    ])

  /** `FINAL_FEATURES`: the column order the preprocessor was fitted on. */
  const FinalFeatures: seq<Feature> :=
    [DaydurG, HealthR, AgeG, AdlR, CaredurG, HealthG, AgeR, AdlG, HukouCityR, IsCitycentre]

  /** `VARIABLE_LABELS_DICT` */
  const VariableLabels: map<Feature, string> := map[
    DaydurG := "Daily care hours (Caregiver)",
    HealthR := "Self-rated health (Recipient)",
    AgeG := "Age (Caregiver)",
    AdlR := "ADL (Recipient)",
    CaredurG := "Duration of care (Caregiver)",
    HealthG := "Self-rated health (Caregiver)",
    AgeR := "Age (Recipient)",
    AdlG := "ADL (Caregiver)",
    HukouCityR := "Hukou status (Recipient)",
    IsCitycentre := "City-center residence (Recipient)"
  ]

  const AdlLevels: map<int, string> := map[0 := "Intact", 1 := "Mild", 2 := "Moderate", 3 := "Severe"]
  const HealthLevels: map<int, string> := map[1 := "Very poor", 2 := "Poor", 3 := "Fair", 4 := "Good", 5 := "Excellent"]

  /** `VALUE_MAPPINGS` */
  const ValueMappings: map<Feature, map<int, string>> := map[
    AdlG := AdlLevels,
    AdlR := AdlLevels,
    HealthR := HealthLevels,
    HukouCityR := map[0 := "Rural", 1 := "Urban"],
    IsCitycentre := map[0 := "No", 1 := "Yes"],
    HealthG := HealthLevels
  ]

  /** `UNITS` */
  const Units: map<Feature, string> := map[
    DaydurG := "hours",
    AgeG := "years",
    AgeR := "years",
    CaredurG := "years"
  ]

  /** `NUM_COLS` */
  const NumCols: seq<Feature> := ColumnsOfKind(FeatureRanges.keys, FeatureRanges.configs, NumericalKind)

  /** `CAT_COLS` */
  const CatCols: seq<Feature> := ColumnsOfKind(FeatureRanges.keys, FeatureRanges.configs, CategoricalKind)
}

=== FILE: scoring.dfy ===
/** One press of "Predict" in app.py: build the record in `FINAL_FEATURES`
    order, score it, label the probability against the threshold, and echo
    the inputs. The preprocessor and classifier are opaque: the probability
    they produce for a built record is a parameter. */
module Scoring {
  import opened Results
  import opened Frames
  import opened Schema
  import opened Display
  import opened Risk
  import opened Consistency

  /** What a successful submission yields: the built record, where its
      probability came from, the probability, the numeric label and the
      narrative. The "Input summary" shown beside them is `Summary(frame)`. */
  datatype Outcome = Outcome(
    frame: Frame<Feature, real>,
    source: ProbabilitySource,
    probability: real,
    predicted: int,
    narrative: Narrative)

  /** Why a submission ends in "Prediction failed": the record builder's
      `ValueError`, or the probability engine's `RuntimeError`. */
  datatype SubmitError = Build(build: BuildError<Feature>) | Engine(engine: EngineError)

  /** Scoring a built record: its probability, and the numeric label and
      the narrative for that probability against `thr`. */
  function Assess(frame: Frame<Feature, real>, source: ProbabilitySource, thr: real, score: Frame<Feature, real> -> real): (o: Outcome)
    ensures o.frame == frame && o.source == source && o.probability == score(frame)
    ensures o.predicted == 1 <==> o.narrative.riskLabel == HighLabel
    ensures o.predicted == 1 <==> o.probability >= thr
    ensures o.predicted == PredictedLabel(o.probability, thr)
    ensures o.narrative == RiskNarrative(o.probability, thr)
  {
    var prob := score(frame);
    Outcome(frame, source, prob, PredictedLabel(prob, thr), RiskNarrative(prob, thr))
  }

  /** The "Input summary" of a built record, with the app's tables: one
      row per column, pairing the feature's label with its summary value. */
  function Summary(frame: Frame<Feature, real>): (rows: seq<(string, Shown)>)
    requires |frame.row| == |frame.columns|
    ensures |rows| == |frame.columns|
    ensures forall i :: 0 <= i < |rows| ==>
      rows[i] == (FeatureLabel(VariableLabels, frame.columns[i]), EchoValue(ValueMappings, Units, frame.columns[i], frame.row[i]))
  {
    EchoRows(frame, VariableLabels, ValueMappings, Units)
  }

  /** The submission path for a classifier offering `m`: a missing feature
      stops it before anything is scored; a classifier with no probability
      output stops it after the build; otherwise `score` gives the
      probability, which is labelled against `thr`, the threshold slider's
      current value. */
  function Submit(inputs: map<Feature, real>, m: ModelSurface, thr: real, score: Frame<Feature, real> -> real): (r: Result<Outcome, SubmitError>)
    ensures r.Failure? && r.error.Build? <==> exists k :: k in FinalFeatures && k !in inputs
    ensures r.Failure? && r.error.Build? ==> r.error.build == MissingFeatures(Absent(FinalFeatures, inputs.Keys))
    ensures r.Failure? && r.error.Engine? <==>
      (forall k :: k in FinalFeatures ==> k in inputs) && ProbabilitySourceOf(m).Failure?
    ensures r.Failure? && r.error.Engine? ==> r.error.engine == UnsupportedModel
    ensures r.Success? ==> ProbabilitySourceOf(m) == Success(r.value.source)
    ensures r.Success? ==> r.value.frame.columns == FinalFeatures && r.value.probability == score(r.value.frame)
    ensures r.Success? ==> (r.value.predicted == 1 <==> r.value.narrative.riskLabel == HighLabel)
    ensures r.Success? ==> (r.value.predicted == 1 <==> r.value.probability >= thr)
    ensures r.Success? ==> |r.value.frame.row| == |FinalFeatures|
    ensures r.Success? ==> forall i :: 0 <= i < |FinalFeatures| ==>
      FinalFeatures[i] in inputs && r.value.frame.row[i] == inputs[FinalFeatures[i]]
    ensures r.Success? ==> r.value.narrative == RiskNarrative(r.value.probability, thr)
  {
    var built := EnsureFeatureFrame(inputs, FinalFeatures);
    if built.Failure? then Failure(Build(built.error))
    else
      var source := ProbabilitySourceOf(m);
      if source.Failure? then Failure(Engine(source.error))
      else Success(Assess(built.value, source.value, thr, score))
  }

  /** A form submission always passes the record builder, so it is scored
      exactly when the classifier offers a probability output; its summary
      shows every categorical answer with its label and every numerical one
      with its unit. */
  lemma FormSubmissionScored(inputs: map<Feature, real>, m: ModelSurface, thr: real, score: Frame<Feature, real> -> real)
    requires FormBuilt(FeatureRanges, inputs)
    ensures EnsureFeatureFrame(inputs, FinalFeatures).Success?
    ensures Submit(inputs, m, thr, score).Success? <==> m.hasPredictProba || m.hasDecisionFunction
    ensures var frame := EnsureFeatureFrame(inputs, FinalFeatures).value;
      && |frame.row| == |frame.columns| == |FinalFeatures|
      && |Summary(frame)| == |FinalFeatures|
      && forall i :: 0 <= i < |FinalFeatures| ==>
           (FinalFeatures[i] !in NumericalFeatures ==> Summary(frame)[i].1.Coded?)
           && (FinalFeatures[i] in NumericalFeatures ==> Summary(frame)[i].1.WithUnit?)
  {
    FormInputsNeverMissing(inputs);
    DispatchSucceedsIffSomeOutput(m);
    var frame := EnsureFeatureFrame(inputs, FinalFeatures).value;
    var rows := Summary(frame);
    forall i | 0 <= i < |FinalFeatures|
      ensures FinalFeatures[i] !in NumericalFeatures ==> rows[i].1.Coded?
      ensures FinalFeatures[i] in NumericalFeatures ==> rows[i].1.WithUnit?
    {
      var k := FinalFeatures[i];
      assert frame.row[i] == inputs[k];
      if k !in NumericalFeatures {
        FormCategoricalShownCoded(inputs, k);
      } else {
        NumericalShownWithUnit(k, inputs[k]);
      }
    }
  }

  /** A sample record: 12 care hours a day, both in excellent health, a
      60-year-old caregiver of ten years for a 70-year-old, no ADL
      limitation, urban hukou, city-centre residence. */
  const SampleRecord: map<Feature, real> := map[
    DaydurG := 12.0, HealthR := 5.0, AgeG := 60.0, AdlR := 0.0, CaredurG := 10.0,
    HealthG := 5.0, AgeR := 70.0, AdlG := 0.0, HukouCityR := 1.0, IsCitycentre := 1.0
  ]

  /** The sample record is something the form can submit: an example of
      `FormBuilt`, not a property of the form. */
  lemma SampleRecordFromForm()
    ensures FormBuilt(FeatureRanges, SampleRecord)
  {
    forall k
      ensures k in SampleRecord && k in FeatureRanges.configs
      ensures FeatureRanges.configs[k].kind in {NumericalKind, CategoricalKind}
      ensures Accepts(FeatureRanges.configs[k], SampleRecord[k])
    {
      SampleAnswerIsValid(k);
    }
  }

  /** The sample's answer for `k` is one the form accepts. */
  ghost predicate SampleAnswerValid(k: Feature) {
    && k in SampleRecord && k in FeatureRanges.configs
    && var cfg := FeatureRanges.configs[k];
    && cfg.kind in {NumericalKind, CategoricalKind}
    && Accepts(cfg, SampleRecord[k])
  }

  lemma SampleAnswerIsValid(k: Feature)
    ensures SampleAnswerValid(k)
  {
    if k in NumericalFeatures {
      SampleNumberInBounds(k);
    } else {
      SampleChoiceOffered(k);
    }
  }

  /** The sample's durations and ages lie within their fields' bounds. */
  lemma SampleNumberInBounds(k: Feature)
    requires k in NumericalFeatures
    ensures SampleAnswerValid(k)
  {
    match k
    case DaydurG => case AgeG => case AgeR => case CaredurG =>
  }

  /** The sample's categorical answers are among the values their select
      boxes offer. */
  lemma SampleChoiceOffered(k: Feature)
    requires k !in NumericalFeatures
    ensures SampleAnswerValid(k)
  {
    var cfg := FeatureRanges.configs[k];
    match k
    case HealthR => assert ExpandOptions(OptionsOf(cfg))[4] == IntS(5);
    case HealthG => assert ExpandOptions(OptionsOf(cfg))[4] == IntS(5);
    case AdlR => assert ExpandOptions(OptionsOf(cfg))[0] == IntS(0);
    case AdlG => assert ExpandOptions(OptionsOf(cfg))[0] == IntS(0);
    case HukouCityR => assert ExpandOptions(OptionsOf(cfg))[1] == IntS(1);
    case IsCitycentre => assert ExpandOptions(OptionsOf(cfg))[1] == IntS(1);
  }

  /** A form submission scored at 0.30 against 0.5 by a classifier with a
      probability output (the sample record, for one) is low risk. */
  lemma ScoredBelowThresholdIsLow(inputs: map<Feature, real>, m: ModelSurface, score: Frame<Feature, real> -> real)
    requires FormBuilt(FeatureRanges, inputs)
    requires m.hasPredictProba || m.hasDecisionFunction
    requires forall f :: score(f) == 0.30
    ensures var r := Submit(inputs, m, 0.5, score);
      && r.Success?
      && r.value.predicted == 0
      && r.value.narrative.riskLabel == LowLabel
      && r.value.narrative.comparison == Below
  {
    FormInputsNeverMissing(inputs);
  }

  /** A form submission scored exactly at the threshold by a classifier with
      a probability output is high risk. */
  lemma ScoredAtThresholdIsHigh(inputs: map<Feature, real>, m: ModelSurface, score: Frame<Feature, real> -> real)
    requires FormBuilt(FeatureRanges, inputs)
    requires m.hasPredictProba || m.hasDecisionFunction
    requires forall f :: score(f) == 0.5
    ensures var r := Submit(inputs, m, 0.5, score);
      && r.Success?
      && r.value.predicted == 1
      && r.value.narrative.riskLabel == HighLabel
      && r.value.narrative.comparison == AtLeast
  {
    FormInputsNeverMissing(inputs);
  }
}

=== FILE: sequences.dfy ===
/** Small facts about sequences used by the record builder and the schema. */
module Sequences {

  /** No element occurs twice. */
  ghost predicate Distinct<T>(s: seq<T>) {
    forall i, j :: 0 <= i < j < |s| ==> s[i] != s[j]
  }

  /** `a` is `b` with some elements dropped and the rest kept in their order. */
  predicate IsSubsequence<T(==)>(a: seq<T>, b: seq<T>)
    decreases |b|
  {
    if |a| == 0 then true
    else if |b| == 0 then false
    else (a[0] == b[0] && IsSubsequence(a[1..], b[1..])) || IsSubsequence(a, b[1..])
  }

  /** A sequence without repeats holds each of its elements exactly once. */
  lemma {:induction false} DistinctCounts<T>(s: seq<T>)
    requires Distinct(s)
    ensures forall x :: multiset(s)[x] == if x in s then 1 else 0
  {
    if |s| > 0 {
      assert s == [s[0]] + s[1..];
      assert Distinct(s[1..]) by {
        forall i, j | 0 <= i < j < |s[1..]| ensures s[1..][i] != s[1..][j] {
          assert s[1..][i] == s[i + 1] && s[1..][j] == s[j + 1];
        }
      }
      DistinctCounts(s[1..]);
      assert s[0] !in s[1..] by {
        forall j | 0 <= j < |s[1..]| ensures s[1..][j] != s[0] {
          assert s[1..][j] == s[j + 1];
        }
      }
      assert multiset(s) == multiset([s[0]]) + multiset(s[1..]);
    }
  }

  /** Two repeat-free sequences with the same elements are permutations of each other. */
  lemma DistinctSameElementsPermutation<T>(a: seq<T>, b: seq<T>)
    requires Distinct(a) && Distinct(b)
    requires forall x :: x in a <==> x in b
    ensures multiset(a) == multiset(b)
  {
    DistinctCounts(a);
    DistinctCounts(b);
    assert forall x :: multiset(a)[x] == multiset(b)[x];
  }
}

=== FILE: threshold.dfy ===
/** The pure part of `load_threshold` (app.py): what the decision threshold is,
    given what reading the threshold file produced. Opening and parsing the
    file are I/O and appear only through their outcome. */
module Threshold {
  import opened Results

  /** The threshold used when the file gives none (the call site's 0.5). */
  const DefaultThreshold: real := 0.5

  /** The entry looked up in the threshold map (the `THRESHOLD_KEY` default). */
  const DefaultKey := "XGBoost"

  /** A JSON document as Python's `json.load` returns it. */
  datatype Json =
    | JNull
    | JBool(b: bool)
    | JNumber(x: real)
    | JString(s: string)
    | JArray(items: seq<Json>)
    | JObject(fields: map<string, Json>)

  /** What reading the threshold file produced: no file at that path, a file
      that could not be read or parsed, or a parsed document. */
  datatype ThresholdFile = NoFile | Unparsable | Parsed(doc: Json)

  /** Python's `float(v)` on a parsed JSON value: numbers as they are, `true`
      and `false` as 1.0 and 0.0, strings through `parseFloat` (the float
      literal parser, a parameter here), and nothing for the other values,
      on which `float` raises. */
  function ToFloat(v: Json, parseFloat: string -> Option<real>): (r: Option<real>)
    ensures v.JNumber? ==> r == Some(v.x)
    ensures v.JBool? ==> r == Some(if v.b then 1.0 else 0.0)
    ensures v.JString? ==> r == parseFloat(v.s)
    ensures v.JNull? || v.JArray? || v.JObject? ==> r == None
  {
    match v
    case JNumber(x) => Some(x)
    case JBool(b) => Some(if b then 1.0 else 0.0)
    case JString(s) => parseFloat(s)
    case _ => None
  }

  /** The file supplies a threshold for `key`: it parsed to an object that
      has the key, and the key's value converts to a float. */
  predicate Supplies(file: ThresholdFile, key: string, parseFloat: string -> Option<real>) {
    && file.Parsed?
    && file.doc.JObject?
    && key in file.doc.fields
    && ToFloat(file.doc.fields[key], parseFloat).Some?
  }

  /** `load_threshold(path, key, default)`: the file's value for `key` when it
      supplies one; the default when the file is absent, unreadable, not an
      object (`d.get` raises), lacks the key, or holds a value `float`
      rejects. */
  function LoadThreshold(file: ThresholdFile, key: string, default: real, parseFloat: string -> Option<real>): (t: real)
    ensures Supplies(file, key, parseFloat) ==> t == ToFloat(file.doc.fields[key], parseFloat).value
    ensures !Supplies(file, key, parseFloat) ==> t == default
    ensures file.NoFile? || file.Unparsable? ==> t == default
    ensures file.Parsed? && file.doc.JObject? && key !in file.doc.fields ==> t == default
  {
    match file
    case NoFile => default
    case Unparsable => default
    case Parsed(doc) =>
      if !doc.JObject? then default
      else
        var v := if key in doc.fields then doc.fields[key] else JNumber(default);
        ToFloat(v, parseFloat).GetOr(default)
  }

  /** `THRESHOLD_KEY`: the key named by the environment, or "XGBoost". */
  function ThresholdKey(env: Option<string>): (key: string)
    ensures env.Some? ==> key == env.value
    ensures env.None? ==> key == "XGBoost"
  {
    env.GetOr(DefaultKey)
  }

  /** `BEST_THRESHOLD`, loaded once at start-up: the file's value for the
      configured key when it supplies one, and 0.5 otherwise. It only sets
      where the threshold slider starts. */
  function BestThreshold(file: ThresholdFile, env: Option<string>, parseFloat: string -> Option<real>): (t: real)
    ensures Supplies(file, ThresholdKey(env), parseFloat) ==> t == ToFloat(file.doc.fields[ThresholdKey(env)], parseFloat).value
    ensures !Supplies(file, ThresholdKey(env), parseFloat) ==> t == 0.5
  {
    LoadThreshold(file, ThresholdKey(env), DefaultThreshold, parseFloat)
  }

  /** Without a readable threshold file the slider starts at 0.5, whatever
      key is configured. */
  lemma NoFileStartsAtHalf(file: ThresholdFile, env: Option<string>, parseFloat: string -> Option<real>)
    requires file.NoFile? || file.Unparsable?
    ensures BestThreshold(file, env, parseFloat) == 0.5
  {
  }

  /** Only the looked-up entry matters: other entries of the threshold map
      can change freely without moving the threshold. */
  lemma OtherEntriesIrrelevant(m1: map<string, Json>, m2: map<string, Json>, key: string, default: real, parseFloat: string -> Option<real>)
    requires key in m1 <==> key in m2
    requires key in m1 ==> m1[key] == m2[key]
    ensures LoadThreshold(Parsed(JObject(m1)), key, default, parseFloat) == LoadThreshold(Parsed(JObject(m2)), key, default, parseFloat)
  {
  }
}
